=== FILE: README.md ===
# Storage commands of the teacher's-assistant desktop backend, in Dafny

The desktop backend keeps its data in JSON files under the application data
directory: learner profiles, per-learner mastery documents and quick-check
histories (`learners/`), a content library index plus one file per artifact
(`library/`), design packs (`design-packs/packs.json`) and local projects
(`projects/projects.json`). Every storage command reads one file whole,
changes the JSON document in memory, and writes it back whole.

This project models each command as a pure function from the old file
contents (and the command's arguments) to the reply and the new file
contents, and proves what the commands promise about them.

- `Json` — the JSON value (`Null`, `Bool`, `Num`, `Str`, `Arr`, `Obj`), a
  parsed-or-malformed text (`Doc`), and the field accessors the commands use
  (`StrField` is `v.get(key).and_then(as_str)`). A file is an `Option<Doc>`:
  `None` when it does not exist. Reading a file as a list falls back to the
  empty list when it is absent, does not parse or is not an array.
- `Outcome` — `Option`, `Result` and the error strings the commands return.
- `Sequences` — the order-preserving filter behind every `retain` and
  `iter().filter(..)`, with the subsequence relation.
- `Records` — records keyed by an identity string: first-match lookup,
  the in-place upsert (replace the first match or append), the
  remove-every-match delete and the equality filter.
- `KeyedStore` — the read/save/delete commands shared by the three array
  files (projects, design packs, learner profiles).
- `ProjectStorage`, `DesignPackStorage`, `LearnerStorage`, `LibraryStorage` —
  one module per command file.
- `TextMatch` — the case-insensitive substring test of the library search.

The code behaves as follows where one might expect otherwise:
- Identifiers are not kept unique by the code. A save replaces only the first
  record with the id, and a delete removes every record with it. The model
  proves that a save keeps identities unique when they already were.
- `save_artifact` does not replace its index entry in place. It drops every
  entry with the artifact's id and pushes the new entry to the end.
- When the stored index parses but has no `artifacts` array (for example
  after `save_library_index` of `{}`), `save_artifact` stores the artifact
  file but adds no index entry, so `search_artifacts` never finds it.
- Some commands fail on a missing file. `get_local_project`,
  `get_design_pack` and `add_artifact_to_project` return "not found".
- `get_quick_check_history` without an objective id returns the stored text
  verbatim, even when that text does not parse. With an objective id, the
  same text counts as an empty history.

## Model

| member | source | states |
|---|---|---|
| Records.FirstMatch | src-tauri/src/commands/project_storage.rs:59-64 | the position found is the first record whose id field is that string; none before it matches; no position means no record matches |
| Records.Lookup | src-tauri/src/commands/project_storage.rs:59-66 | the record returned is the one at the first matching position and carries the id; nothing is returned exactly when no record matches |
| Records.Upsert | src-tauri/src/commands/project_storage.rs:102-113 | when a record has the id, the first such record is replaced in place and length and all other positions are unchanged; otherwise the new record is appended |
| Records.UpsertInPlace | src-tauri/src/commands/project_storage.rs:102-113 | the scan-overwrite-break loop followed by a push when nothing matched computes exactly the upsert |
| Records.RemoveAll | src-tauri/src/commands/project_storage.rs:144 | the result is a subsequence of the input holding no record with the id and every record without it; it is the input when no record matched |
| Records.Select | src-tauri/src/commands/project_storage.rs:174-177 | the result is a subsequence of the input; every element has the id; every matching record is kept; its length is the number of matches |
| Records.LookupAfterUpsert | src-tauri/src/commands/project_storage.rs:102-113 | after saving a record, looking up its id returns that record |
| Records.LookupOtherAfterUpsert | src-tauri/src/commands/design_pack_storage.rs:103-113 | saving a record leaves the lookup of every other id unchanged |
| Records.UpsertIdempotent | src-tauri/src/commands/project_storage.rs:103-113 | saving the same record twice yields the same array as saving it once |
| Records.UpsertKeepsUnique | src-tauri/src/commands/learner_storage.rs:82-92 | if no two records shared an id before a save, none do after it |
| Records.RemoveAllIdempotent | src-tauri/src/commands/design_pack_storage.rs:144 | deleting an id twice gives the same array as deleting it once |
| Records.LookupOtherAfterRemoveAll | src-tauri/src/commands/project_storage.rs:143-144 | deleting one id leaves the lookup of every other id unchanged |
| Records.RemoveUndoesInsert | src-tauri/src/commands/project_storage.rs:133-144 | deleting the id of a record that was appended by a save restores the original array |
| Records.SelectRemovePartition | src-tauri/src/commands/learner_storage.rs:296-299 | the records with an id and the records without it together make up the whole array, as multisets |
| Sequences.Filter | src-tauri/src/commands/library_storage.rs:280-344 | the filtered sequence is a subsequence of the input, holds only and all the elements satisfying the predicate, and has as many as satisfy it |
| Sequences.FilterConcat | src-tauri/src/commands/learner_storage.rs:337 | filtering a concatenation is concatenating the filtered parts |
| Sequences.FilterTwice | src-tauri/src/commands/library_storage.rs:282-342 | filtering by one predicate and then another is filtering by their conjunction |
| Sequences.FilterPartition | src-tauri/src/commands/library_storage.rs:168 | a predicate's filter and its negation's filter partition the input as multisets |
| TextMatch.Lower | src-tauri/src/commands/library_storage.rs:332-334 | the result has the input's length, has no upper-case ASCII letters, and differs from the input only by lower-casing A-Z |
| TextMatch.ContainsAtOffset | src-tauri/src/commands/library_storage.rs:334 | the substring test holds exactly when the needle occurs at some offset of the haystack |
| KeyedStore.ReadAll | src-tauri/src/commands/project_storage.rs:28-39 | without a file the reply is an empty array; otherwise it is the stored text unchanged, even when that text does not parse |
| KeyedStore.ReadOne | src-tauri/src/commands/project_storage.rs:43-67 | succeeds exactly when a stored record has the id, returning the first one; otherwise fails with the not-found message and the id |
| KeyedStore.Save | src-tauri/src/commands/project_storage.rs:84-113 | malformed text and a missing string id fail with the source's messages; otherwise the written array is the stored one with the first match replaced or the record appended |
| KeyedStore.Delete | src-tauri/src/commands/project_storage.rs:133-144 | without a file nothing is written; otherwise the written array keeps, in order, exactly the records without the id, and is unchanged when none had it |
| KeyedStore.ReadAfterSave | src-tauri/src/commands/project_storage.rs:102-113 | get-one after a save returns the saved record |
| KeyedStore.ReadOtherAfterSave | src-tauri/src/commands/project_storage.rs:102-113 | a save leaves get-one of every other id unchanged |
| KeyedStore.SaveIdempotent | src-tauri/src/commands/project_storage.rs:102-113 | saving the same text twice writes the same file as saving it once |
| KeyedStore.ReadOtherAfterDelete | src-tauri/src/commands/project_storage.rs:143-144 | a delete leaves get-one of every other id unchanged |
| KeyedStore.DeleteUndoesNewSave | src-tauri/src/commands/project_storage.rs:133-144 | deleting a record whose save appended it restores the stored records |
| ProjectStorage.GetLocalProject | src-tauri/src/commands/project_storage.rs:49-66 | fails with "Project not found: <id>" without a file or a match; otherwise returns the first stored project with that projectId |
| ProjectStorage.SaveLocalProject | src-tauri/src/commands/project_storage.rs:84-113 | errors for malformed text or a missing projectId; on success the first project with the id is replaced in place, or the project is appended when the id is new, with every other position unchanged; get_local_project then returns the saved project and every other id's lookup is unchanged |
| ProjectStorage.SaveLocalProjectIdempotent | src-tauri/src/commands/project_storage.rs:103-113 | saving a project twice writes the same file as saving it once |
| ProjectStorage.DeleteLocalProject | src-tauri/src/commands/project_storage.rs:133-151 | without a file nothing changes; otherwise the file is rewritten as an array holding exactly the projects without the id, in their order ("[]" when all had it); every project with the id is dropped and the others keep their order; afterwards the id is not found, every other project's lookup is unchanged, and an absent id leaves the array as it was |
| ProjectStorage.GetProjectsByType | src-tauri/src/commands/project_storage.rs:164-177 | the reply is the subsequence of stored projects whose type is exactly that string, all of them, in order; empty without a file |
| ProjectStorage.AddOnce | src-tauri/src/commands/project_storage.rs:209-215 | the id is present afterwards; the elements are the old ones plus the id; the old array is a prefix; no duplicate is introduced |
| ProjectStorage.WithArtifactId | src-tauri/src/commands/project_storage.rs:205-215 | a missing artifactIds becomes an array holding just the id; an array gets the id added once; a non-array is left alone; other fields are unchanged |
| ProjectStorage.AttachArtifact | src-tauri/src/commands/project_storage.rs:203-226 | an object project gains the id in artifactIds and both activity dates, keeps every other field and its projectId; a non-object is unchanged |
| ProjectStorage.AttachArtifactIdempotent | src-tauri/src/commands/project_storage.rs:209-225 | attaching the same id twice at the same instant changes the project once |
| ProjectStorage.AddArtifactToProject | src-tauri/src/commands/project_storage.rs:191-234 | fails with "Project not found: <id>" without a file or a match; otherwise the first matching project is replaced in place by it with the artifact attached, every other position is unchanged, and get_local_project returns the updated project |
| ProjectStorage.AddArtifactTwice | src-tauri/src/commands/project_storage.rs:202-230 | a second identical call at the same instant writes the same file |
| DesignPackStorage.GetDesignPacks | src-tauri/src/commands/design_pack_storage.rs:32-34 | without a file the reply is an empty array; otherwise it is the stored text unchanged, even when that text does not parse |
| DesignPackStorage.GetDesignPack | src-tauri/src/commands/design_pack_storage.rs:49-66 | fails with "Design pack not found: <id>" without a file or a match; otherwise returns the first stored pack with that packId |
| DesignPackStorage.SaveDesignPack | src-tauri/src/commands/design_pack_storage.rs:84-113 | errors for malformed text or a missing packId; on success the first match is replaced in place or the pack appended, get_design_pack returns it and other packs are unchanged |
| DesignPackStorage.SaveDesignPackIdempotent | src-tauri/src/commands/design_pack_storage.rs:103-113 | saving a pack twice writes the same file as saving it once |
| DesignPackStorage.DeleteDesignPack | src-tauri/src/commands/design_pack_storage.rs:133-151 | without a file nothing changes; otherwise the file is rewritten as an array holding exactly the packs without the id, in their order; the id is not found afterwards and other packs are unchanged |
| LearnerStorage.SaveLearnerProfile | src-tauri/src/commands/learner_storage.rs:63-92 | errors for malformed text or a missing learnerId; on success the profile is upserted in place or appended, is found by its id, and no other file changes |
| LearnerStorage.DeleteLearnerProfile | src-tauri/src/commands/learner_storage.rs:119-141 | the profiles file, when present, is rewritten as an array holding exactly the profiles without the id, in their order; other ids are found as before; the learner's mastery and quick-check files are gone |
| LearnerStorage.DefaultMastery | src-tauri/src/commands/learner_storage.rs:161-165 | the default document has exactly learnerId, an empty objectives object and a null lastSessionDate |
| LearnerStorage.GetLearnerMastery | src-tauri/src/commands/learner_storage.rs:159-171 | without a mastery file the reply is the default document; otherwise the stored text |
| LearnerStorage.RecordObjective | src-tauri/src/commands/learner_storage.rs:218-229 | objectives[objectiveId] becomes the record, other objective keys and values are unchanged, lastSessionDate becomes the given time, and other fields are unchanged |
| LearnerStorage.SaveObjectiveMastery | src-tauri/src/commands/learner_storage.rs:189-229 | errors for malformed text or a missing objectiveId; on success only this learner's mastery file changes, to the stored or default document with the objective recorded |
| LearnerStorage.FirstObjectiveMastery | src-tauri/src/commands/learner_storage.rs:210-229 | with no prior file the document holds exactly the one objective, the learner's id and the session time |
| LearnerStorage.SaveLearnerMastery | src-tauri/src/commands/learner_storage.rs:256-263 | malformed text fails; otherwise get_learner_mastery returns the text and other learners are unchanged |
| LearnerStorage.GetQuickCheckHistory | src-tauri/src/commands/learner_storage.rs:284-304 | without a file the reply is an empty array; without an objective id it is the stored text; with one it is the order-preserving subsequence of results for that objective |
| LearnerStorage.SaveQuickCheckResult | src-tauri/src/commands/learner_storage.rs:322-337 | malformed text fails; otherwise the history becomes the old history with the result appended, and nothing else changes |
| LearnerStorage.FilteredHistoryAfterSave | src-tauri/src/commands/learner_storage.rs:294-299 | after a save the filtered history is the old filtered history plus the new result if it is for that objective |
| LibraryStorage.DefaultIndex | src-tauri/src/commands/library_storage.rs:136-140 | the default index has version 1, the given lastUpdated and an empty artifacts array, and nothing else |
| LibraryStorage.GetLibraryIndex | src-tauri/src/commands/library_storage.rs:38-49 | without a file the reply is the default index: version 1, lastUpdated `now` and an empty artifacts array; otherwise the stored text unchanged |
| LibraryStorage.SaveLibraryIndex | src-tauri/src/commands/library_storage.rs:66-73 | malformed text fails with "Invalid index JSON"; otherwise the text becomes the index and the artifact files are unchanged |
| LibraryStorage.GetArtifact | src-tauri/src/commands/library_storage.rs:91-97 | succeeds exactly when an artifact file exists for the id, returning it; otherwise "Artifact not found: <id>" |
| LibraryStorage.IndexEntry | src-tauri/src/commands/library_storage.rs:151-162 | the entry has exactly the ten metadata keys, each copied from the artifact or null, and carries the artifact's id |
| LibraryStorage.Touch | src-tauri/src/commands/library_storage.rs:175-180 | an object index gets lastUpdated set to the given time with every other field and the artifacts unchanged; any other value is left alone |
| LibraryStorage.SaveArtifact | src-tauri/src/commands/library_storage.rs:115-172 | malformed text and a missing artifactId fail with the source's messages; on success the artifact file holds the artifact, get_artifact returns it, and the index is updated |
| LibraryStorage.SaveArtifactIndexesOnce | src-tauri/src/commands/library_storage.rs:164-171 | when the index it works on has an `artifacts` array, after a save that array has exactly one entry for the id, it is the last and is the artifact's projection, and all other entries keep their order |
| LibraryStorage.IndexAfterSave | src-tauri/src/commands/library_storage.rs:164-180 | an `artifacts` array loses every entry with the id and gains the new entry at the end; an index without one gains no entry; an object index gets `lastUpdated` stamped and keeps every other field |
| LibraryStorage.SavedButNotIndexed | src-tauri/src/commands/library_storage.rs:164-172 | with no `artifacts` array in the index, a successful save stores the artifact, yet the index lists nothing and every search replies with an empty list |
| LibraryStorage.IndexAfterDelete | src-tauri/src/commands/library_storage.rs:222-233 | an `artifacts` array loses exactly the entries with the id, in order; an object index gets `lastUpdated` stamped and keeps every other field |
| LibraryStorage.DeleteArtifact | src-tauri/src/commands/library_storage.rs:198-240 | the artifact file is gone; without an index file the index is untouched; otherwise the index (the default one if the file does not parse) keeps every field, gets `lastUpdated` stamped, and its artifacts array keeps exactly the entries without the id, in order, unchanged when the id was absent |
| LibraryStorage.IndexDeleteUndoesSave | src-tauri/src/commands/library_storage.rs:222-226 | removing the id of an entry just pushed onto an array that lacked it restores the array |
| LibraryStorage.DeleteUndoesNewArtifact | src-tauri/src/commands/library_storage.rs:210-226 | deleting an artifact whose save first indexed it restores the index entries |
| LibraryStorage.Search | src-tauri/src/commands/library_storage.rs:280-344 | the result is the order-preserving subsequence of exactly the entries that meet every given criterion |
| LibraryStorage.SearchArtifacts | src-tauri/src/commands/library_storage.rs:251-277 | without an index file the reply is empty; a malformed query fails; otherwise the reply is a subsequence of the indexed entries holding exactly those matching the query, each as often as in the index; an unparsable index gives an empty reply |
| LibraryStorage.UnfilteredSearch | src-tauri/src/commands/library_storage.rs:282-342 | a query giving none of the seven criteria as a string returns every entry |
| LibraryStorage.MergedCriteria | src-tauri/src/commands/library_storage.rs:284-340 | each criterion of a query built from two disjoint halves holds exactly when it holds for both halves |
| LibraryStorage.MatchesMergedQuery | src-tauri/src/commands/library_storage.rs:282-342 | a query built from two disjoint sets of criteria matches an entry exactly when both halves do |
| LibraryStorage.SearchConjunctive | src-tauri/src/commands/library_storage.rs:280-344 | searching with two disjoint sets of criteria at once equals searching with one and then the other |
| LibraryStorage.SearchTextIgnoresCase | src-tauri/src/commands/library_storage.rs:331-340 | a searchText and its lower-cased form select the same entries |

## Left out

- File-system failures are not modelled: failed reads, writes, directory creation and serialisation. Each command is one atomic step that either fails before writing or writes its files.
- Directory creation is not modelled, and neither is the order of the two writes in `save_artifact` (artifact file before index). No command can observe an empty directory, because every read tests for the file itself.
- Paths built from the app data directory are not modelled. Artifact and learner ids used as file or directory names are treated as map keys, which assumes each id is a plain file name: non-empty, without `/`, and neither `.` nor `..`. Other ids reach other files in the source and the model does not follow them. `delete_learner_profile` with the empty id removes the whole learners directory, profiles file included. Deleting learner `a` also removes the data of learner `a/b`. `save_artifact` with id `../index` overwrites the library index. The frames of `LearnerStorage.DeleteLearnerProfile` (only this learner's mastery and quick-check entries go) and `LibraryStorage.SaveArtifact` (only this id's artifact changes) hold only for such plain ids.
- The clock is a `now` parameter. The source reads it afresh at each use within one command; the model uses one instant per command.
- JSON numbers are integers, and written files are their values rather than pretty-printed text. A parse failure keeps only the message prefix, not the parser's detail.
- TextMatch.Lower: lower-cases only the ASCII letters A-Z. Rust's `to_lowercase` also maps other Unicode letters, some of them to several characters, and lower-cases a word-final capital sigma to `ς` rather than `σ`. A search over non-ASCII text can therefore differ in both directions. Title `Σ` with searchText `σ` matches in the source and not in the model. Title `ΑΣ` with searchText `Σ` matches in the model, where nothing is lower-cased, but not in the source, which compares `ας` with `σ`.
- Concurrent commands on the same file are not modelled. The source takes no lock, so one write can silently overwrite another.
- The Ollama process manager (`ollama.rs`) is not modelled. It spawns processes, probes HTTP, sleeps and retries, and formats sizes in floating point.
- The file and dialog wrappers (`file_system.rs`, `dialog.rs`) and the command registration in `lib.rs` are not modelled.
- `GetLocalProjects` and `GetLearnerProfiles` have no contract rows. Each simply returns `KeyedStore.ReadAll`.

=== FILE: design_pack_storage.dfy ===
/** The design-pack commands over `design-packs/packs.json`: one JSON array
    of packs keyed by `packId`. */
module DesignPackStorage {
  import opened Outcome
  import opened Json
  import opened Records
  import opened KeyedStore

  const Packs := Kind("packId", "Invalid pack JSON", "Pack must have a packId")
  const NotFound := "Design pack not found: "

  /** `get_design_packs`: the stored array, or an empty one without a file. */
  function GetDesignPacks(f: Option<Doc>): (r: Doc)
    ensures f.None? ==> r == Parsed(Arr([]))
    ensures f.Some? ==> r == f.value
    ensures ListOrEmpty(Some(r)) == ListOrEmpty(f)
  {
    ReadAll(f)
  }

  /** `get_design_pack`: the first pack with that `packId`. */
  function GetDesignPack(f: Option<Doc>, id: string): (r: Result<Value>)
    ensures f.None? ==> r == Err(Failure(NotFound + id))
    ensures r.Ok? <==> exists i :: 0 <= i < |ListOrEmpty(f)| && HasId(ListOrEmpty(f)[i], "packId", id)
    ensures r.Ok? ==> HasId(r.value, "packId", id) && Lookup(ListOrEmpty(f), "packId", id) == Some(r.value)
    ensures r.Err? ==> r.error == Failure(NotFound + id)
  {
    ReadOne(Packs, NotFound, f, id)
  }

  /** `save_design_pack`: upsert by `packId`, replacing the first match in
      place or appending. */
  function SaveDesignPack(f: Option<Doc>, text: Doc): (r: Result<Option<Doc>>)
    ensures text.Malformed? ==> r == Err(InvalidJson("Invalid pack JSON"))
    ensures text.Parsed? && StrField(text.value, "packId").None? ==> r == Err(Failure("Pack must have a packId"))
    ensures r.Ok? <==> text.Parsed? && StrField(text.value, "packId").Some?
    ensures r.Ok? ==> ReplacedOrAppended(ListOrEmpty(f), ListOrEmpty(r.value), "packId", StrField(text.value, "packId").value, text.value)
    ensures r.Ok? ==> GetDesignPack(r.value, StrField(text.value, "packId").value) == Ok(text.value)
    ensures r.Ok? ==> forall other :: other != StrField(text.value, "packId").value ==>
                        GetDesignPack(r.value, other) == GetDesignPack(f, other)
  {
    var r := Save(Packs, f, text);
    if r.Ok? then
      ReadAfterSave(Packs, NotFound, f, text);
      assert forall other :: other != IncomingId(Packs, text).value ==>
               GetDesignPack(r.value, other) == GetDesignPack(f, other) by {
        forall other | other != IncomingId(Packs, text).value {
          ReadOtherAfterSave(Packs, NotFound, f, text, other);
        }
      }
      r
    else
      r
  }

  /** Saving the same pack twice has the effect of saving it once. */
  lemma SaveDesignPackIdempotent(f: Option<Doc>, text: Doc)
    requires SaveDesignPack(f, text).Ok?
    ensures SaveDesignPack(SaveDesignPack(f, text).value, text) == SaveDesignPack(f, text)
  {
    SaveIdempotent(Packs, f, text);
  }

  /** `delete_design_pack`: drop every pack with that `packId`. */
  function DeleteDesignPack(f: Option<Doc>, id: string): (r: Option<Doc>)
    ensures f.None? ==> r.None?
    ensures f.Some? ==> r == ListFile(ListOrEmpty(r))
    ensures RetainedOthers(ListOrEmpty(f), ListOrEmpty(r), "packId", id)
    ensures GetDesignPack(r, id) == Err(Failure(NotFound + id))
    ensures forall other :: other != id ==> GetDesignPack(r, other) == GetDesignPack(f, other)
  {
    ReadAfterDelete(Packs, NotFound, f, id);
    assert forall other :: other != id ==> GetDesignPack(Delete(Packs, f, id), other) == GetDesignPack(f, other) by {
      forall other | other != id {
        ReadOtherAfterDelete(Packs, NotFound, f, id, other);
      }
    }
    Delete(Packs, f, id)
  }
}

=== FILE: json.dfy ===
/** A model of the untyped JSON documents the storage commands read and write. */
module Json {
  import opened Outcome

  /** A JSON value. Numbers are modelled as integers; objects as maps from keys
      to values (the default object map of the source keeps keys sorted, so no
      insertion order is lost). */
  datatype Value =
    | Null
    | Bool(b: bool)
    | Num(n: int)
    | Str(s: string)
    | Arr(items: seq<Value>)
    | Obj(fields: map<string, Value>)

  /** The text of a file or of a command argument, once handed to the JSON
      parser: either it does not parse, or it yields a value. */
  datatype Doc = Malformed | Parsed(value: Value)

  /** `v.get(key)`: a field of an object; nothing for any other value. */
  function Get(v: Value, key: string): Option<Value>
  {
    if v.Obj? && key in v.fields then Some(v.fields[key]) else None
  }

  /** `v.get(key).and_then(|x| x.as_str())`: a field that holds a string. */
  function StrField(v: Value, key: string): Option<string>
  {
    match Get(v, key)
    case Some(Str(s)) => Some(s)
    case _ => None
  }

  /** `v.get(key).and_then(|x| x.as_array())`: a field that holds an array. */
  function ArrayField(v: Value, key: string): Option<seq<Value>>
  {
    match Get(v, key)
    case Some(Arr(xs)) => Some(xs)
    case _ => None
  }

  /** How the `json!` macro serialises an optional value: `None` becomes null. */
  function OrNull(o: Option<Value>): Value
  {
    match o
    case Some(v) => v
    case None => Null
  }

  /** Reading a stored file as a list of values, falling back to the empty list
      when the file is absent, does not parse, or does not hold an array. */
  function ListOrEmpty(f: Option<Doc>): seq<Value>
  {
    match f
    case Some(Parsed(Arr(xs))) => xs
    case _ => []
  }

  /** The document a list is written back as. */
  function ListFile(xs: seq<Value>): Option<Doc>
  {
    Some(Parsed(Arr(xs)))
  }
}

=== FILE: keyed_store.dfy ===
/** The array-backed index files (projects, design packs, learner profiles):
    one JSON array of records keyed by an identity field, read whole,
    changed in memory and written back whole. */
module KeyedStore {
  import opened Outcome
  import opened Json
  import opened Records

  /** What tells one collection from another: its identity field and the
      messages its save command fails with. */
  datatype Kind = Kind(idKey: string, invalidJson: string, missingId: string)

  /** The "get all" command: the stored text as it is, or an empty array when
      there is no file. */
  function ReadAll(f: Option<Doc>): (r: Doc)
    ensures ListOrEmpty(Some(r)) == ListOrEmpty(f)
    ensures f.None? ==> r == Parsed(Arr([]))
    ensures f.Some? ==> r == f.value
  {
    match f
    case None => Parsed(Arr([]))
    case Some(d) => d
  }

  /** The "get one" command: the first stored record with identity `id`. */
  function ReadOne(k: Kind, notFound: string, f: Option<Doc>, id: string): (r: Result<Value>)
    ensures r.Ok? <==> FirstMatch(ListOrEmpty(f), k.idKey, id).Some?
    ensures r.Ok? ==> r.value == ListOrEmpty(f)[FirstMatch(ListOrEmpty(f), k.idKey, id).value]
    ensures r.Err? ==> r.error == Failure(notFound + id)
  {
    match f
    case None => Err(Failure(notFound + id))
    case Some(_) =>
      match Lookup(ListOrEmpty(f), k.idKey, id)
      case Some(v) => Ok(v)
      case None => Err(Failure(notFound + id))
  }

  /** The identity of an incoming record, when the text parsed and carries one. */
  function IncomingId(k: Kind, text: Doc): Option<string>
  {
    match text
    case Malformed => None
    case Parsed(v) => StrField(v, k.idKey)
  }

  /** The "save" command: parse the record, demand a string identity, then
      upsert it into the stored array (an absent or unreadable file counting
      as empty) and write the array back. */
  function Save(k: Kind, f: Option<Doc>, text: Doc): (r: Result<Option<Doc>>)
    ensures text.Malformed? ==> r == Err(InvalidJson(k.invalidJson))
    ensures text.Parsed? && IncomingId(k, text).None? ==> r == Err(Failure(k.missingId))
    ensures r.Ok? <==> IncomingId(k, text).Some?
    ensures r.Ok? ==> r.value == ListFile(ListOrEmpty(r.value))
    ensures r.Ok? ==> ReplacedOrAppended(ListOrEmpty(f), ListOrEmpty(r.value), k.idKey, IncomingId(k, text).value, text.value)
  {
    match text
    case Malformed => Err(InvalidJson(k.invalidJson))
    case Parsed(v) =>
      match StrField(v, k.idKey)
      case None => Err(Failure(k.missingId))
      case Some(id) => Ok(ListFile(Upsert(ListOrEmpty(f), k.idKey, id, v)))
  }

  /** The "delete" command: nothing happens without a file; otherwise every
      record with identity `id` is dropped and the rest written back. */
  function Delete(k: Kind, f: Option<Doc>, id: string): (r: Option<Doc>)
    ensures f.None? ==> r.None?
    ensures f.Some? ==> r == ListFile(ListOrEmpty(r))
    ensures RetainedOthers(ListOrEmpty(f), ListOrEmpty(r), k.idKey, id)
    ensures Lookup(ListOrEmpty(f), k.idKey, id).None? ==> ListOrEmpty(r) == ListOrEmpty(f)
  {
    match f
    case None => None
    case Some(_) => ListFile(RemoveAll(ListOrEmpty(f), k.idKey, id))
  }

  /** Whatever was saved is what "get one" returns afterwards. */
  lemma ReadAfterSave(k: Kind, notFound: string, f: Option<Doc>, text: Doc)
    requires Save(k, f, text).Ok?
    ensures ReadOne(k, notFound, Save(k, f, text).value, IncomingId(k, text).value) == Ok(text.value)
  {
    LookupAfterUpsert(ListOrEmpty(f), k.idKey, IncomingId(k, text).value, text.value);
  }

  /** Saving one record leaves "get one" for every other identity unchanged. */
  lemma ReadOtherAfterSave(k: Kind, notFound: string, f: Option<Doc>, text: Doc, other: string)
    requires Save(k, f, text).Ok? && other != IncomingId(k, text).value
    ensures ReadOne(k, notFound, Save(k, f, text).value, other) == ReadOne(k, notFound, f, other)
  {
    LookupOtherAfterUpsert(ListOrEmpty(f), k.idKey, IncomingId(k, text).value, text.value, other);
  }

  /** Saving the same text twice leaves the same file as saving it once. */
  lemma SaveIdempotent(k: Kind, f: Option<Doc>, text: Doc)
    requires Save(k, f, text).Ok?
    ensures Save(k, Save(k, f, text).value, text) == Save(k, f, text)
  {
    UpsertIdempotent(ListOrEmpty(f), k.idKey, IncomingId(k, text).value, text.value);
  }

  /** After a delete "get one" fails for that identity. */
  lemma ReadAfterDelete(k: Kind, notFound: string, f: Option<Doc>, id: string)
    ensures ReadOne(k, notFound, Delete(k, f, id), id) == Err(Failure(notFound + id))
  {
  }

  /** A delete leaves "get one" for every other identity unchanged. */
  lemma ReadOtherAfterDelete(k: Kind, notFound: string, f: Option<Doc>, id: string, other: string)
    requires other != id
    ensures ReadOne(k, notFound, Delete(k, f, id), other) == ReadOne(k, notFound, f, other)
  {
    LookupOtherAfterRemoveAll(ListOrEmpty(f), k.idKey, id, other);
  }

  /** Deleting a record whose save created it restores the stored records. */
  lemma DeleteUndoesNewSave(k: Kind, f: Option<Doc>, text: Doc)
    requires Save(k, f, text).Ok?
    requires Lookup(ListOrEmpty(f), k.idKey, IncomingId(k, text).value).None?
    ensures ListOrEmpty(Delete(k, Save(k, f, text).value, IncomingId(k, text).value)) == ListOrEmpty(f)
  {
    RemoveUndoesInsert(ListOrEmpty(f), k.idKey, IncomingId(k, text).value, text.value);
  }
}

=== FILE: learner_storage.dfy ===
/** The learner commands: the profile array `learners/profiles.json`, and per
    learner the mastery document `learners/<id>/mastery.json` and the
    quick-check history `learners/<id>/quick-checks.json`. */
module LearnerStorage {
  import opened Outcome
  import opened Json
  import opened Sequences
  import opened Records
  import opened KeyedStore

  /** The files the learner commands touch. A learner's directory is not
      modelled: every command tests for the files themselves, so an empty
      directory is indistinguishable from a missing one. */
  datatype Learners = Learners(
    profiles: Option<Doc>,
    mastery: map<string, Doc>,
    checks: map<string, Doc>)

  const Profiles := Kind("learnerId", "Invalid profile JSON", "Profile must have a learnerId")

  /** The file stored for a learner in one of the per-learner maps. */
  function FileOf(files: map<string, Doc>, learnerId: string): Option<Doc>
  {
    if learnerId in files then Some(files[learnerId]) else None
  }

  // ---------------------------------------------------------------- profiles

  /** `get_learner_profiles`. */
  function GetLearnerProfiles(st: Learners): Doc
  {
    ReadAll(st.profiles)
  }

  /** `save_learner_profile`: upsert by `learnerId`; nothing else changes. */
  function SaveLearnerProfile(st: Learners, text: Doc): (r: Result<Learners>)
    ensures text.Malformed? ==> r == Err(InvalidJson("Invalid profile JSON"))
    ensures text.Parsed? && StrField(text.value, "learnerId").None? ==> r == Err(Failure("Profile must have a learnerId"))
    ensures r.Ok? <==> text.Parsed? && StrField(text.value, "learnerId").Some?
    ensures r.Ok? ==> ReplacedOrAppended(ListOrEmpty(st.profiles), ListOrEmpty(r.value.profiles),
                                         "learnerId", StrField(text.value, "learnerId").value, text.value)
    ensures r.Ok? ==> Lookup(ListOrEmpty(r.value.profiles), "learnerId", StrField(text.value, "learnerId").value) == Some(text.value)
    ensures r.Ok? ==> r.value.mastery == st.mastery && r.value.checks == st.checks
  {
    match Save(Profiles, st.profiles, text)
    case Err(e) => Err(e)
    case Ok(f) =>
      LookupAfterUpsert(ListOrEmpty(st.profiles), "learnerId", IncomingId(Profiles, text).value, text.value);
      Ok(st.(profiles := f))
  }

  /** `delete_learner_profile`: drop the profiles with that id and the
      learner's whole directory. */
  function DeleteLearnerProfile(st: Learners, learnerId: string): (r: Learners)
    ensures st.profiles.None? ==> r.profiles.None?
    ensures st.profiles.Some? ==> r.profiles == ListFile(ListOrEmpty(r.profiles))
    ensures RetainedOthers(ListOrEmpty(st.profiles), ListOrEmpty(r.profiles), "learnerId", learnerId)
    ensures Lookup(ListOrEmpty(r.profiles), "learnerId", learnerId).None?
    ensures forall other :: other != learnerId ==>
              Lookup(ListOrEmpty(r.profiles), "learnerId", other) == Lookup(ListOrEmpty(st.profiles), "learnerId", other)
    ensures r.mastery == st.mastery - {learnerId} && r.checks == st.checks - {learnerId}
  {
    assert forall other :: other != learnerId ==>
             Lookup(ListOrEmpty(Delete(Profiles, st.profiles, learnerId)), "learnerId", other)
             == Lookup(ListOrEmpty(st.profiles), "learnerId", other) by {
      forall other | other != learnerId {
        LookupOtherAfterRemoveAll(ListOrEmpty(st.profiles), "learnerId", learnerId, other);
      }
    }
    Learners(Delete(Profiles, st.profiles, learnerId), st.mastery - {learnerId}, st.checks - {learnerId})
  }

  // ----------------------------------------------------------------- mastery

  /** The mastery document of a learner who has none yet. */
  function DefaultMastery(learnerId: string): (d: Value)
    ensures StrField(d, "learnerId") == Some(learnerId)
    ensures Get(d, "objectives") == Some(Obj(map[]))
    ensures Get(d, "lastSessionDate") == Some(Null)
    ensures d.Obj? && |d.fields| == 3
  {
    var m := map["learnerId" := Str(learnerId), "objectives" := Obj(map[]), "lastSessionDate" := Null];
    assert m.Keys == {"learnerId", "objectives", "lastSessionDate"};
    Obj(m)
  }

  /** `get_learner_mastery`: the stored document verbatim, or the default. */
  function GetLearnerMastery(st: Learners, learnerId: string): (r: Doc)
    ensures learnerId !in st.mastery ==> r == Parsed(DefaultMastery(learnerId))
    ensures learnerId in st.mastery ==> r == st.mastery[learnerId]
  {
    match FileOf(st.mastery, learnerId)
    case None => Parsed(DefaultMastery(learnerId))
    case Some(d) => d
  }

  /** The document `save_objective_mastery` starts from: the stored one, or
      the default when the file is absent or does not parse. */
  function LoadMastery(st: Learners, learnerId: string): Value
  {
    match FileOf(st.mastery, learnerId)
    case Some(Parsed(v)) => v
    case _ => DefaultMastery(learnerId)
  }

  /** The document's `objectives` object, when it has one. */
  function Objectives(d: Value): Option<map<string, Value>>
  {
    match Get(d, "objectives")
    case Some(Obj(m)) => Some(m)
    case _ => None
  }

  /** Record one objective's mastery in a mastery document and stamp
      `lastSessionDate`; a document that is not an object is left alone, and
      so is an `objectives` field that is not an object. */
  function RecordObjective(d: Value, objectiveId: string, record: Value, now: string): (d': Value)
    ensures !d.Obj? ==> d' == d
    ensures d.Obj? ==> d'.Obj? && d'.fields.Keys == d.fields.Keys + {"lastSessionDate"}
    ensures d.Obj? ==> Get(d', "lastSessionDate") == Some(Str(now))
    ensures d.Obj? ==> forall k :: k in d.fields && k != "objectives" && k != "lastSessionDate" ==> d'.fields[k] == d.fields[k]
    ensures Objectives(d).Some? ==> Objectives(d').Some?
    ensures Objectives(d).Some? ==> objectiveId in Objectives(d').value && Objectives(d').value[objectiveId] == record
    ensures Objectives(d).Some? ==> forall o :: o != objectiveId ==>
              (o in Objectives(d').value <==> o in Objectives(d).value)
    ensures Objectives(d).Some? ==> forall o :: o != objectiveId && o in Objectives(d).value ==>
              Objectives(d').value[o] == Objectives(d).value[o]
    ensures d.Obj? && Objectives(d).None? ==> Get(d', "objectives") == Get(d, "objectives")
  {
    match d
    case Obj(m) =>
      var m1 := match Objectives(d)
        case Some(om) => m["objectives" := Obj(om[objectiveId := record])]
        case None => m;
      Obj(m1["lastSessionDate" := Str(now)])
    case _ => d
  }

  /** `save_objective_mastery`: set `objectives[objectiveId]` in the learner's
      mastery document and stamp `lastSessionDate`. */
  function SaveObjectiveMastery(st: Learners, learnerId: string, text: Doc, now: string): (r: Result<Learners>)
    ensures text.Malformed? ==> r == Err(InvalidJson("Invalid mastery JSON"))
    ensures text.Parsed? && StrField(text.value, "objectiveId").None? ==> r == Err(Failure("Mastery must have an objectiveId"))
    ensures r.Ok? <==> text.Parsed? && StrField(text.value, "objectiveId").Some?
    ensures r.Ok? ==> r.value.profiles == st.profiles && r.value.checks == st.checks
    ensures r.Ok? ==> r.value.mastery.Keys == st.mastery.Keys + {learnerId}
    ensures r.Ok? ==> forall other :: other in st.mastery && other != learnerId ==> r.value.mastery[other] == st.mastery[other]
    ensures r.Ok? ==>
              r.value.mastery[learnerId] ==
              Parsed(RecordObjective(LoadMastery(st, learnerId), StrField(text.value, "objectiveId").value, text.value, now))
  {
    match text
    case Malformed => Err(InvalidJson("Invalid mastery JSON"))
    case Parsed(record) =>
      match StrField(record, "objectiveId")
      case None => Err(Failure("Mastery must have an objectiveId"))
      case Some(objectiveId) =>
        var d := RecordObjective(LoadMastery(st, learnerId), objectiveId, record, now);
        Ok(st.(mastery := st.mastery[learnerId := Parsed(d)]))
  }

  /** A learner with no mastery file ends up with exactly the one objective,
      their id, and the session date. */
  lemma FirstObjectiveMastery(st: Learners, learnerId: string, text: Doc, now: string)
    requires learnerId !in st.mastery
    requires SaveObjectiveMastery(st, learnerId, text, now).Ok?
    ensures var d := GetLearnerMastery(SaveObjectiveMastery(st, learnerId, text, now).value, learnerId);
            && d.Parsed?
            && Objectives(d.value) == Some(map[StrField(text.value, "objectiveId").value := text.value])
            && StrField(d.value, "learnerId") == Some(learnerId)
            && Get(d.value, "lastSessionDate") == Some(Str(now))
  {
    var oid := StrField(text.value, "objectiveId").value;
    var d := RecordObjective(DefaultMastery(learnerId), oid, text.value, now);
    assert Objectives(DefaultMastery(learnerId)) == Some(map[]);
    assert Objectives(d).value.Keys == {oid};
  }

  /** `save_learner_mastery`: store the whole document once it parses. */
  function SaveLearnerMastery(st: Learners, learnerId: string, text: Doc): (r: Result<Learners>)
    ensures text.Malformed? ==> r == Err(InvalidJson("Invalid mastery JSON"))
    ensures text.Parsed? ==> r.Ok? && GetLearnerMastery(r.value, learnerId) == text
    ensures r.Ok? ==> r.value.profiles == st.profiles && r.value.checks == st.checks
    ensures r.Ok? ==> forall other :: other != learnerId ==> GetLearnerMastery(r.value, other) == GetLearnerMastery(st, other)
  {
    match text
    case Malformed => Err(InvalidJson("Invalid mastery JSON"))
    case Parsed(_) => Ok(st.(mastery := st.mastery[learnerId := text]))
  }

  // ------------------------------------------------------------ quick checks

  /** The learner's stored quick-check results, in the order they were saved. */
  function History(st: Learners, learnerId: string): seq<Value>
  {
    ListOrEmpty(FileOf(st.checks, learnerId))
  }

  /** `get_quick_check_history`: the stored text verbatim, or, given an
      objective id, the results for that objective in stored order. */
  function GetQuickCheckHistory(st: Learners, learnerId: string, objectiveId: Option<string>): (r: Doc)
    ensures learnerId !in st.checks ==> r == Parsed(Arr([]))
    ensures learnerId in st.checks && objectiveId.None? ==> r == st.checks[learnerId]
    ensures objectiveId.Some? ==> r.Parsed? && r.value.Arr?
    ensures objectiveId.Some? ==> SubseqOf(r.value.items, History(st, learnerId))
    ensures objectiveId.Some? ==> forall i :: 0 <= i < |r.value.items| ==> HasId(r.value.items[i], "objectiveId", objectiveId.value)
    ensures objectiveId.Some? ==> |r.value.items| == CountId(History(st, learnerId), "objectiveId", objectiveId.value)
  {
    match FileOf(st.checks, learnerId)
    case None => Parsed(Arr([]))
    case Some(d) =>
      match objectiveId
      case None => d
      case Some(o) => Parsed(Arr(Select(History(st, learnerId), "objectiveId", o)))
  }

  /** `save_quick_check_result`: append one result to the learner's history. */
  function SaveQuickCheckResult(st: Learners, learnerId: string, text: Doc): (r: Result<Learners>)
    ensures text.Malformed? ==> r == Err(InvalidJson("Invalid result JSON"))
    ensures r.Ok? <==> text.Parsed?
    ensures r.Ok? ==> History(r.value, learnerId) == History(st, learnerId) + [text.value]
    ensures r.Ok? ==> r.value.checks[learnerId] == Parsed(Arr(History(r.value, learnerId)))
    ensures r.Ok? ==> r.value.profiles == st.profiles && r.value.mastery == st.mastery
    ensures r.Ok? ==> forall other :: other != learnerId ==> FileOf(r.value.checks, other) == FileOf(st.checks, other)
  {
    match text
    case Malformed => Err(InvalidJson("Invalid result JSON"))
    case Parsed(result) =>
      Ok(st.(checks := st.checks[learnerId := Parsed(Arr(History(st, learnerId) + [result]))]))
  }

  /** The filtered history after a save is the old filtered history, followed
      by the new result when it is for that objective. */
  lemma FilteredHistoryAfterSave(st: Learners, learnerId: string, text: Doc, objectiveId: string)
    requires SaveQuickCheckResult(st, learnerId, text).Ok?
    ensures var before := Select(History(st, learnerId), "objectiveId", objectiveId);
            GetQuickCheckHistory(SaveQuickCheckResult(st, learnerId, text).value, learnerId, Some(objectiveId))
            == Parsed(Arr(before + (if HasId(text.value, "objectiveId", objectiveId) then [text.value] else [])))
  {
    FilterConcat(History(st, learnerId), [text.value], x => HasId(x, "objectiveId", objectiveId));
  }
}

=== FILE: library_storage.dfy ===
/** The content library: the index `library/index.json` (an object whose
    `artifacts` array holds one metadata entry per artifact) and the full
    artifact files `library/artifacts/<artifactId>.json`. */
module LibraryStorage {
  import opened Outcome
  import opened Json
  import opened Sequences
  import opened Records
  import opened TextMatch

  /** The index file and the artifact files, keyed by artifact id. An artifact
      file holds the text the artifact was saved with; it always parsed. */
  datatype Library = Library(index: Option<Doc>, artifacts: map<string, Value>)

  const ArtifactKey := "artifactId"

  /** The metadata an index entry copies from its artifact, and nothing else. */
  const EntryFields: set<string> :=
    {"artifactId", "projectId", "jobId", "type", "title", "grade", "subject",
     "objectiveTags", "designPackId", "createdAt"}

  /** The query fields `search_artifacts` understands. */
  const QueryFields: set<string> :=
    {"projectId", "grade", "subject", "type", "objectiveTag", "designPackId", "searchText"}

  /** The index's `artifacts` array, when it has one. */
  function ArtifactsOf(index: Value): Option<seq<Value>>
  {
    ArrayField(index, "artifacts")
  }

  /** The index used when the file is absent or does not parse. */
  function DefaultIndex(now: string): (d: Value)
    ensures ArtifactsOf(d) == Some([])
    ensures Get(d, "version") == Some(Num(1)) && Get(d, "lastUpdated") == Some(Str(now))
    ensures d.Obj? && |d.fields| == 3
  {
    var m := map["version" := Num(1), "lastUpdated" := Str(now), "artifacts" := Arr([])];
    assert m.Keys == {"version", "lastUpdated", "artifacts"};
    Obj(m)
  }

  /** The index a command works on: the parsed file, or the default when the
      file is absent or does not parse. */
  function LoadIndex(f: Option<Doc>, now: string): Value
  {
    match f
    case Some(Parsed(v)) => v
    case _ => DefaultIndex(now)
  }

  /** The entries of a stored index, or none when it has no `artifacts` array
      (a malformed file counts as the default, whose array is empty). */
  function IndexedArtifacts(d: Doc): seq<Value>
  {
    match d
    case Parsed(v) =>
      (match ArtifactsOf(v) case Some(xs) => xs case None => [])
    case Malformed => []
  }

  /** `get_library_index`: the stored text verbatim, or the default index. */
  function GetLibraryIndex(lib: Library, now: string): (r: Doc)
    ensures lib.index.None? ==> r == Parsed(DefaultIndex(now))
    ensures lib.index.Some? ==> r == lib.index.value
  {
    match lib.index
    case None => Parsed(DefaultIndex(now))
    case Some(d) => d
  }

  /** `save_library_index`: store the whole index once it parses. */
  function SaveLibraryIndex(lib: Library, text: Doc): (r: Result<Library>)
    ensures text.Malformed? ==> r == Err(InvalidJson("Invalid index JSON"))
    ensures text.Parsed? ==> r.Ok? && GetLibraryIndex(r.value, "") == text
    ensures r.Ok? ==> r.value.artifacts == lib.artifacts
  {
    match text
    case Malformed => Err(InvalidJson("Invalid index JSON"))
    case Parsed(_) => Ok(lib.(index := Some(text)))
  }

  /** `get_artifact`: the full artifact saved under that id. */
  function GetArtifact(lib: Library, artifactId: string): (r: Result<Value>)
    ensures r.Ok? <==> artifactId in lib.artifacts
    ensures r.Ok? ==> r.value == lib.artifacts[artifactId]
    ensures r.Err? ==> r.error == Failure("Artifact not found: " + artifactId)
  {
    if artifactId in lib.artifacts then Ok(lib.artifacts[artifactId])
    else Err(Failure("Artifact not found: " + artifactId))
  }

  /** The index entry of an artifact: its ten metadata fields, a missing one
      written as null. The content itself is not copied. */
  function IndexEntry(artifact: Value): (e: Value)
    ensures e.Obj? && e.fields.Keys == EntryFields
    ensures forall k :: k in EntryFields ==> e.fields[k] == OrNull(Get(artifact, k))
    ensures StrField(e, ArtifactKey) == StrField(artifact, ArtifactKey)
  {
    Obj(map k | k in EntryFields :: OrNull(Get(artifact, k)))
  }

  /** Stamp `lastUpdated` on an index that is an object. */
  function Touch(index: Value, now: string): (r: Value)
    ensures !index.Obj? ==> r == index
    ensures index.Obj? ==> r.Obj? && r.fields.Keys == index.fields.Keys + {"lastUpdated"}
    ensures index.Obj? ==> r.fields["lastUpdated"] == Str(now)
    ensures index.Obj? ==> forall k :: k in index.fields && k != "lastUpdated" ==> r.fields[k] == index.fields[k]
    ensures ArtifactsOf(r) == ArtifactsOf(index)
  {
    match index
    case Obj(m) => Obj(m["lastUpdated" := Str(now)])
    case _ => index
  }

  /** Replace the index's `artifacts` array; the index must have one. */
  function WithArtifacts(index: Value, xs: seq<Value>): (r: Value)
    requires ArtifactsOf(index).Some?
    ensures ArtifactsOf(r) == Some(xs)
    ensures r.Obj? && r.fields.Keys == index.fields.Keys
    ensures forall k :: k in index.fields && k != "artifacts" ==> r.fields[k] == index.fields[k]
  {
    Obj(index.fields["artifacts" := Arr(xs)])
  }

  /** `after` is `index` with `lastUpdated` stamped `now` when it is an
      object, every other field kept, and the `artifacts` field kept too
      unless it is an array (which the caller rewrites). */
  ghost predicate StampedKeepingFields(index: Value, after: Value, now: string)
  {
    && (!index.Obj? ==> after == index)
    && (index.Obj? ==>
          && after.Obj?
          && after.fields.Keys == index.fields.Keys + {"lastUpdated"}
          && after.fields["lastUpdated"] == Str(now)
          && forall k :: k in index.fields && k != "lastUpdated" && (k != "artifacts" || ArtifactsOf(index).None?) ==>
                           after.fields[k] == index.fields[k])
  }

  /** The index after `save_artifact`: every entry with the artifact's id is
      removed and the new entry pushed to the end; an index without an
      `artifacts` array keeps its entries as they were. */
  function IndexAfterSave(index: Value, artifactId: string, entry: Value, now: string): (r: Value)
    ensures ArtifactsOf(index).Some? ==> ArtifactsOf(r) == Some(RemoveAll(ArtifactsOf(index).value, ArtifactKey, artifactId) + [entry])
    ensures ArtifactsOf(index).None? ==> ArtifactsOf(r).None?
    ensures StampedKeepingFields(index, r, now)
  {
    match ArtifactsOf(index)
    case Some(xs) => Touch(WithArtifacts(index, RemoveAll(xs, ArtifactKey, artifactId) + [entry]), now)
    case None => Touch(index, now)
  }

  /** The index after `delete_artifact`: every entry with that id removed. */
  function IndexAfterDelete(index: Value, artifactId: string, now: string): (r: Value)
    ensures ArtifactsOf(index).Some? ==> ArtifactsOf(r) == Some(RemoveAll(ArtifactsOf(index).value, ArtifactKey, artifactId))
    ensures ArtifactsOf(index).None? ==> ArtifactsOf(r).None?
    ensures StampedKeepingFields(index, r, now)
  {
    match ArtifactsOf(index)
    case Some(xs) => Touch(WithArtifacts(index, RemoveAll(xs, ArtifactKey, artifactId)), now)
    case None => Touch(index, now)
  }

  /** The `artifactId` of an incoming artifact, when its text parsed and carries one. */
  function IncomingArtifactId(text: Doc): Option<string>
  {
    match text
    case Malformed => None
    case Parsed(v) => StrField(v, ArtifactKey)
  }

  /** `save_artifact`: store the full artifact under its id and refresh its
      index entry. */
  function SaveArtifact(lib: Library, text: Doc, now: string): (r: Result<Library>)
    ensures text.Malformed? ==> r == Err(InvalidJson("Invalid artifact JSON"))
    ensures text.Parsed? && IncomingArtifactId(text).None? ==> r == Err(Failure("Artifact must have an artifactId"))
    ensures r.Ok? <==> IncomingArtifactId(text).Some?
    ensures r.Ok? ==> r.value.artifacts == lib.artifacts[IncomingArtifactId(text).value := text.value]
    ensures r.Ok? ==> GetArtifact(r.value, IncomingArtifactId(text).value) == Ok(text.value)
    ensures r.Ok? ==> r.value.index == Some(Parsed(IndexAfterSave(LoadIndex(lib.index, now), IncomingArtifactId(text).value, IndexEntry(text.value), now)))
  {
    match text
    case Malformed => Err(InvalidJson("Invalid artifact JSON"))
    case Parsed(artifact) =>
      match StrField(artifact, ArtifactKey)
      case None => Err(Failure("Artifact must have an artifactId"))
      case Some(id) =>
        var index := IndexAfterSave(LoadIndex(lib.index, now), id, IndexEntry(artifact), now);
        Ok(Library(Some(Parsed(index)), lib.artifacts[id := artifact]))
  }

  /** After `save_artifact` with id X the index holds exactly one entry for X,
      at the end, and every other entry in its former order. */
  lemma SaveArtifactIndexesOnce(lib: Library, text: Doc, now: string)
    requires SaveArtifact(lib, text, now).Ok?
    requires ArtifactsOf(LoadIndex(lib.index, now)).Some?
    ensures var before := ArtifactsOf(LoadIndex(lib.index, now)).value;
            var after := IndexedArtifacts(SaveArtifact(lib, text, now).value.index.value);
            var id := IncomingArtifactId(text).value;
            && |after| > 0
            && after[|after| - 1] == IndexEntry(text.value)
            && CountId(after, ArtifactKey, id) == 1
            && RetainedOthers(before, after[..|after| - 1], ArtifactKey, id)
  {
    var before := ArtifactsOf(LoadIndex(lib.index, now)).value;
    var id := IncomingArtifactId(text).value;
    var kept := RemoveAll(before, ArtifactKey, id);
    var after := kept + [IndexEntry(text.value)];
    var p := x => HasId(x, ArtifactKey, id);
    FilterConcat(kept, [IndexEntry(text.value)], p);
    assert Count(kept, p) == 0;
    assert after[..|after| - 1] == kept;
  }

  /** When the stored index has no `artifacts` array (a `save_library_index`
      of `{}` leaves it so), `save_artifact` still stores the artifact but
      indexes nothing, so a search cannot find it. */
  lemma SavedButNotIndexed(lib: Library, text: Doc, now: string, query: Doc)
    requires SaveArtifact(lib, text, now).Ok?
    requires ArtifactsOf(LoadIndex(lib.index, now)).None?
    ensures var saved := SaveArtifact(lib, text, now).value;
            && GetArtifact(saved, IncomingArtifactId(text).value) == Ok(text.value)
            && IndexedArtifacts(saved.index.value) == []
            && (query.Parsed? ==> SearchArtifacts(saved, query) == Ok([]))
  {
  }

  /** `delete_artifact`: remove the artifact file and, when there is an index
      file, every index entry with that id. */
  function DeleteArtifact(lib: Library, artifactId: string, now: string): (r: Library)
    ensures r.artifacts == lib.artifacts - {artifactId}
    ensures GetArtifact(r, artifactId).Err?
    ensures lib.index.None? ==> r.index.None?
    ensures lib.index.Some? ==> r.index == Some(Parsed(IndexAfterDelete(LoadIndex(lib.index, now), artifactId, now)))
    ensures lib.index.Some? && ArtifactsOf(LoadIndex(lib.index, now)).Some? ==>
              RetainedOthers(ArtifactsOf(LoadIndex(lib.index, now)).value, IndexedArtifacts(r.index.value), ArtifactKey, artifactId)
    ensures lib.index.Some? && ArtifactsOf(LoadIndex(lib.index, now)).None? ==>
              IndexedArtifacts(r.index.value) == []
    ensures lib.index.Some? && Lookup(IndexedArtifacts(lib.index.value), ArtifactKey, artifactId).None? ==>
              IndexedArtifacts(r.index.value) == IndexedArtifacts(lib.index.value)
  {
    var artifacts := lib.artifacts - {artifactId};
    match lib.index
    case None => Library(None, artifacts)
    case Some(_) => Library(Some(Parsed(IndexAfterDelete(LoadIndex(lib.index, now), artifactId, now))), artifacts)
  }

  /** On the index itself: removing an id whose entry was just pushed onto an
      array that did not hold it gives back the original array. */
  lemma IndexDeleteUndoesSave(index: Value, artifactId: string, entry: Value, now: string)
    requires ArtifactsOf(index).Some? && HasId(entry, ArtifactKey, artifactId)
    requires Lookup(ArtifactsOf(index).value, ArtifactKey, artifactId).None?
    ensures ArtifactsOf(IndexAfterDelete(IndexAfterSave(index, artifactId, entry, now), artifactId, now)) == ArtifactsOf(index)
  {
    var xs := ArtifactsOf(index).value;
    assert RemoveAll(xs, ArtifactKey, artifactId) == xs;
    var saved := Touch(WithArtifacts(index, xs + [entry]), now);
    assert saved == IndexAfterSave(index, artifactId, entry, now);
    assert ArtifactsOf(saved) == Some(xs + [entry]);
    FilterConcat(xs, [entry], x => !HasId(x, ArtifactKey, artifactId));
    assert RemoveAll([entry], ArtifactKey, artifactId) == [];
    assert RemoveAll(xs + [entry], ArtifactKey, artifactId) == xs;
    var deleted := Touch(WithArtifacts(saved, xs), now);
    assert deleted == IndexAfterDelete(saved, artifactId, now);
  }

  /** Deleting an artifact whose save first indexed it restores the index's
      entries. */
  lemma DeleteUndoesNewArtifact(lib: Library, text: Doc, now: string)
    requires SaveArtifact(lib, text, now).Ok?
    requires lib.index.Some? && lib.index.value.Parsed? && ArtifactsOf(lib.index.value.value).Some?
    requires Lookup(IndexedArtifacts(lib.index.value), ArtifactKey, IncomingArtifactId(text).value).None?
    ensures var saved := SaveArtifact(lib, text, now).value;
            IndexedArtifacts(DeleteArtifact(saved, IncomingArtifactId(text).value, now).index.value) == IndexedArtifacts(lib.index.value)
  {
    IndexDeleteUndoesSave(lib.index.value.value, IncomingArtifactId(text).value, IndexEntry(text.value), now);
  }

  // ------------------------------------------------------------------ search

  /** A plain-string query field `field`, when given, must equal the entry's. */
  predicate EqualsIfGiven(query: Value, entry: Value, field: string)
  {
    match StrField(query, field)
    case None => true
    case Some(want) => StrField(entry, field) == Some(want)
  }

  /** An `objectiveTag` query, when given, must be one of the entry's
      `objectiveTags`; an entry without that array never matches. */
  predicate HasTagIfGiven(query: Value, entry: Value)
  {
    match StrField(query, "objectiveTag")
    case None => true
    case Some(tag) =>
      match ArrayField(entry, "objectiveTags")
      case None => false
      case Some(tags) => Str(tag) in tags
  }

  /** A `searchText` query, when given, must occur in the entry's title,
      ignoring case; an entry without a string title never matches. */
  predicate TitleContainsIfGiven(query: Value, entry: Value)
  {
    match StrField(query, "searchText")
    case None => true
    case Some(text) =>
      match StrField(entry, "title")
      case None => false
      case Some(title) => Contains(Lower(title), Lower(text))
  }

  /** The filter closure of `search_artifacts`: every given criterion holds. */
  predicate MatchesQuery(query: Value, entry: Value)
  {
    && EqualsIfGiven(query, entry, "projectId")
    && EqualsIfGiven(query, entry, "grade")
    && EqualsIfGiven(query, entry, "subject")
    && EqualsIfGiven(query, entry, "type")
    && HasTagIfGiven(query, entry)
    && EqualsIfGiven(query, entry, "designPackId")
    && TitleContainsIfGiven(query, entry)
  }

  /** The entries that match the query, in index order. */
  function Search(query: Value, entries: seq<Value>): (r: seq<Value>)
    ensures SubseqOf(r, entries)
    ensures forall i :: 0 <= i < |r| ==> MatchesQuery(query, r[i])
    ensures forall e :: e in entries && MatchesQuery(query, e) ==> e in r
    ensures |r| == Count(entries, e => MatchesQuery(query, e))
  {
    Filter(entries, e => MatchesQuery(query, e))
  }

  /** `search_artifacts`. */
  function SearchArtifacts(lib: Library, query: Doc): (r: Result<seq<Value>>)
    ensures lib.index.None? ==> r == Ok([])
    ensures lib.index.Some? && query.Malformed? ==> r == Err(InvalidJson("Invalid query JSON"))
    ensures lib.index.Some? && query.Parsed? ==> r.Ok? && SubseqOf(r.value, IndexedArtifacts(lib.index.value))
    ensures r.Ok? && lib.index.Some? ==> forall i :: 0 <= i < |r.value| ==> MatchesQuery(query.value, r.value[i])
    ensures r.Ok? && lib.index.Some? ==> forall e :: e in IndexedArtifacts(lib.index.value) && MatchesQuery(query.value, e) ==> e in r.value
    ensures r.Ok? && lib.index.Some? ==> |r.value| == Count(IndexedArtifacts(lib.index.value), e => MatchesQuery(query.value, e))
    ensures lib.index == Some(Malformed) && query.Parsed? ==> r == Ok([])
  {
    match lib.index
    case None => Ok([])
    case Some(d) =>
      match query
      case Malformed => Err(InvalidJson("Invalid query JSON"))
      case Parsed(q) => Ok(Search(q, IndexedArtifacts(d)))
  }

  /** A query that gives none of the criteria as a string returns every entry. */
  lemma UnfilteredSearch(query: Value, entries: seq<Value>)
    requires forall k :: k in QueryFields ==> StrField(query, k).None?
    ensures Search(query, entries) == entries
  {
  }

  /** Each criterion of a merged query is the conjunction of its halves'. */
  lemma MergedCriteria(m1: map<string, Value>, m2: map<string, Value>, e: Value, k: string)
    requires m1.Keys !! m2.Keys
    ensures EqualsIfGiven(Obj(m1 + m2), e, k) <==> EqualsIfGiven(Obj(m1), e, k) && EqualsIfGiven(Obj(m2), e, k)
    ensures HasTagIfGiven(Obj(m1 + m2), e) <==> HasTagIfGiven(Obj(m1), e) && HasTagIfGiven(Obj(m2), e)
    ensures TitleContainsIfGiven(Obj(m1 + m2), e) <==> TitleContainsIfGiven(Obj(m1), e) && TitleContainsIfGiven(Obj(m2), e)
  {
  }

  /** The criteria of a query are conjunctive: a query made of two disjoint
      sets of criteria matches an entry exactly when both halves do. */
  lemma MatchesMergedQuery(m1: map<string, Value>, m2: map<string, Value>, e: Value)
    requires m1.Keys !! m2.Keys
    ensures MatchesQuery(Obj(m1 + m2), e) <==> MatchesQuery(Obj(m1), e) && MatchesQuery(Obj(m2), e)
  {
    MergedCriteria(m1, m2, e, "projectId");
    MergedCriteria(m1, m2, e, "grade");
    MergedCriteria(m1, m2, e, "subject");
    MergedCriteria(m1, m2, e, "type");
    MergedCriteria(m1, m2, e, "designPackId");
  }

  /** Searching with two disjoint sets of criteria at once is searching with
      one set and then with the other. */
  lemma SearchConjunctive(m1: map<string, Value>, m2: map<string, Value>, entries: seq<Value>)
    requires m1.Keys !! m2.Keys
    ensures Search(Obj(m1 + m2), entries) == Search(Obj(m1), Search(Obj(m2), entries))
  {
    forall e {
      MatchesMergedQuery(m1, m2, e);
    }
    FilterTwice(entries, e => MatchesQuery(Obj(m2), e), e => MatchesQuery(Obj(m1), e), e => MatchesQuery(Obj(m1 + m2), e));
  }

  /** The search text is matched without regard to the case of its letters. */
  lemma SearchTextIgnoresCase(m: map<string, Value>, text: string, entries: seq<Value>)
    ensures Search(Obj(m["searchText" := Str(text)]), entries) == Search(Obj(m["searchText" := Str(Lower(text))]), entries)
  {
    var q1 := Obj(m["searchText" := Str(text)]);
    var q2 := Obj(m["searchText" := Str(Lower(text))]);
    LowerIdempotent(text);
    forall e
      ensures MatchesQuery(q1, e) == MatchesQuery(q2, e)
    {
      assert forall k :: k in QueryFields && k != "searchText" ==> StrField(q1, k) == StrField(q2, k);
    }
    FilterAgreeing(entries, e => MatchesQuery(q1, e), e => MatchesQuery(q2, e));
  }
}

=== FILE: outcome.dfy ===
/** Failure-carrying result types shared by every storage command.

    The commands report every failure as a human-readable string. The model
    keeps the fixed messages verbatim and, for a parse failure, keeps only the
    context prefix (the parser's own detail text is not modelled).
 */
module Outcome {

  /** An optional value, as Rust's `Option`. */
  datatype Option<+T> = None | Some(value: T)

  /** Why a command failed.
      - `InvalidJson(context)` stands for "<context>: <parser detail>".
      - `Failure(message)` is a fixed message such as "Project not found: p1". */
  datatype Error = InvalidJson(context: string) | Failure(message: string)

  /** The outcome of a command that can fail. */
  datatype Result<+T> = Ok(value: T) | Err(error: Error)
}

=== FILE: project_storage.dfy ===
/** The local-project commands over `projects/projects.json`: one JSON array
    of projects keyed by `projectId`. */
module ProjectStorage {
  import opened Outcome
  import opened Json
  import opened Sequences
  import opened Records
  import opened KeyedStore

  const Projects := Kind("projectId", "Invalid project JSON", "Project must have a projectId")
  const NotFound := "Project not found: "

  /** `get_local_projects`. */
  function GetLocalProjects(f: Option<Doc>): Doc
  {
    ReadAll(f)
  }

  /** `get_local_project`: the first project with that `projectId`. */
  function GetLocalProject(f: Option<Doc>, id: string): (r: Result<Value>)
    ensures f.None? ==> r == Err(Failure(NotFound + id))
    ensures r.Ok? <==> exists i :: 0 <= i < |ListOrEmpty(f)| && HasId(ListOrEmpty(f)[i], "projectId", id)
    ensures r.Ok? ==> HasId(r.value, "projectId", id) && Lookup(ListOrEmpty(f), "projectId", id) == Some(r.value)
    ensures r.Err? ==> r.error == Failure(NotFound + id)
  {
    ReadOne(Projects, NotFound, f, id)
  }

  /** `save_local_project`: upsert by `projectId`. The saved project is what a
      later `get_local_project` returns, and no other project changes. */
  function SaveLocalProject(f: Option<Doc>, text: Doc): (r: Result<Option<Doc>>)
    ensures text.Malformed? ==> r == Err(InvalidJson("Invalid project JSON"))
    ensures text.Parsed? && StrField(text.value, "projectId").None? ==> r == Err(Failure("Project must have a projectId"))
    ensures r.Ok? <==> text.Parsed? && StrField(text.value, "projectId").Some?
    ensures r.Ok? ==> ReplacedOrAppended(ListOrEmpty(f), ListOrEmpty(r.value), "projectId", StrField(text.value, "projectId").value, text.value)
    ensures r.Ok? ==> GetLocalProject(r.value, StrField(text.value, "projectId").value) == Ok(text.value)
    ensures r.Ok? ==> forall other :: other != StrField(text.value, "projectId").value ==>
                        GetLocalProject(r.value, other) == GetLocalProject(f, other)
    ensures r.Ok? ==> |ListOrEmpty(r.value)| == |ListOrEmpty(f)| + (if GetLocalProject(f, StrField(text.value, "projectId").value).Ok? then 0 else 1)
  {
    var r := Save(Projects, f, text);
    if r.Ok? then
      ReadAfterSave(Projects, NotFound, f, text);
      assert forall other :: other != IncomingId(Projects, text).value ==>
               GetLocalProject(r.value, other) == GetLocalProject(f, other) by {
        forall other | other != IncomingId(Projects, text).value {
          ReadOtherAfterSave(Projects, NotFound, f, text, other);
        }
      }
      r
    else
      r
  }

  /** Saving the same project twice stores the same array as saving it once. */
  lemma SaveLocalProjectIdempotent(f: Option<Doc>, text: Doc)
    requires SaveLocalProject(f, text).Ok?
    ensures SaveLocalProject(SaveLocalProject(f, text).value, text) == SaveLocalProject(f, text)
  {
    SaveIdempotent(Projects, f, text);
  }

  /** `delete_local_project`: drop every project with that `projectId`. */
  function DeleteLocalProject(f: Option<Doc>, id: string): (r: Option<Doc>)
    ensures f.None? ==> r.None?
    ensures f.Some? ==> r == ListFile(ListOrEmpty(r))
    ensures RetainedOthers(ListOrEmpty(f), ListOrEmpty(r), "projectId", id)
    ensures GetLocalProject(r, id) == Err(Failure(NotFound + id))
    ensures forall other :: other != id ==> GetLocalProject(r, other) == GetLocalProject(f, other)
    ensures GetLocalProject(f, id).Err? ==> ListOrEmpty(r) == ListOrEmpty(f)
  {
    ReadAfterDelete(Projects, NotFound, f, id);
    assert forall other :: other != id ==> GetLocalProject(Delete(Projects, f, id), other) == GetLocalProject(f, other) by {
      forall other | other != id {
        ReadOtherAfterDelete(Projects, NotFound, f, id, other);
      }
    }
    Delete(Projects, f, id)
  }

  /** `get_projects_by_type`: the projects whose `type` is that string, in
      stored order. */
  function GetProjectsByType(f: Option<Doc>, projectType: string): (r: seq<Value>)
    ensures f.None? ==> r == []
    ensures SubseqOf(r, ListOrEmpty(f))
    ensures forall i :: 0 <= i < |r| ==> StrField(r[i], "type") == Some(projectType)
    ensures forall p :: p in ListOrEmpty(f) && StrField(p, "type") == Some(projectType) ==> p in r
    ensures |r| == Count(ListOrEmpty(f), p => StrField(p, "type") == Some(projectType))
  {
    Filter(ListOrEmpty(f), p => StrField(p, "type") == Some(projectType))
  }

  /** No value occurs twice. */
  ghost predicate NoDuplicates(xs: seq<Value>)
  {
    forall i, j :: 0 <= i < j < |xs| ==> xs[i] != xs[j]
  }

  /** `if !arr.contains(&x) { arr.push(x) }`: the array used as a set. */
  function AddOnce(xs: seq<Value>, x: Value): (r: seq<Value>)
    ensures x in r
    ensures forall y :: y in r <==> y in xs || y == x
    ensures xs <= r && |r| <= |xs| + 1
    ensures NoDuplicates(xs) ==> NoDuplicates(r)
    ensures x in xs ==> r == xs
  {
    if x in xs then xs else xs + [x]
  }

  /** The fields `add_artifact_to_project` may change. */
  const Touched: set<string> := {"artifactIds", "lastActivityDate", "updatedAt"}

  /** The project's `artifactIds` array, when it has one. */
  function ArtifactIds(p: Value): Option<seq<Value>>
  {
    ArrayField(p, "artifactIds")
  }

  /** `entry("artifactIds").or_insert_with(empty array)` followed by the
      add-once push; a non-array `artifactIds` is left alone. */
  function WithArtifactId(m: map<string, Value>, artifactId: string): (m': map<string, Value>)
    ensures m'.Keys == m.Keys + {"artifactIds"}
    ensures forall k :: k in m && k != "artifactIds" ==> m'[k] == m[k]
    ensures "artifactIds" !in m ==> m'["artifactIds"] == Arr([Str(artifactId)])
    ensures "artifactIds" in m && m["artifactIds"].Arr? ==>
              m'["artifactIds"] == Arr(AddOnce(m["artifactIds"].items, Str(artifactId)))
    ensures "artifactIds" in m && !m["artifactIds"].Arr? ==> m' == m
  {
    var ids := if "artifactIds" in m then m["artifactIds"] else Arr([]);
    assert AddOnce([], Str(artifactId)) == [Str(artifactId)];
    match ids
    case Arr(xs) => m["artifactIds" := Arr(AddOnce(xs, Str(artifactId)))]
    case _ => m
  }

  /** What `add_artifact_to_project` does to the project it finds: create
      `artifactIds` when missing, add the id unless present, and stamp both
      activity dates. A project that is not an object is left as it is. */
  function AttachArtifact(p: Value, artifactId: string, now: string): (q: Value)
    ensures !p.Obj? ==> q == p
    ensures p.Obj? ==> q.Obj? && q.fields.Keys == p.fields.Keys + Touched
    ensures p.Obj? ==> q.fields["lastActivityDate"] == Str(now) && q.fields["updatedAt"] == Str(now)
    ensures p.Obj? ==> forall k :: k in p.fields && k !in Touched ==> q.fields[k] == p.fields[k]
    ensures p.Obj? && "artifactIds" !in p.fields ==> ArtifactIds(q) == Some([Str(artifactId)])
    ensures ArtifactIds(p).Some? ==> ArtifactIds(q) == Some(AddOnce(ArtifactIds(p).value, Str(artifactId)))
    ensures p.Obj? && "artifactIds" in p.fields && ArtifactIds(p).None? ==> q.fields["artifactIds"] == p.fields["artifactIds"]
    ensures StrField(q, "projectId") == StrField(p, "projectId")
  {
    match p
    case Obj(m) =>
      var withIds := WithArtifactId(m, artifactId);
      assert "projectId" !in Touched;
      Obj(withIds["lastActivityDate" := Str(now)]["updatedAt" := Str(now)])
    case _ => p
  }

  /** A second attachment of the same id at the same instant changes nothing. */
  lemma AttachArtifactIdempotent(p: Value, artifactId: string, now: string)
    ensures AttachArtifact(AttachArtifact(p, artifactId, now), artifactId, now) == AttachArtifact(p, artifactId, now)
  {
  }

  /** `add_artifact_to_project`: record an artifact id on the first project
      with that `projectId`; fails when there is no file or no such project. */
  function AddArtifactToProject(f: Option<Doc>, projectId: string, artifactId: string, now: string): (r: Result<Option<Doc>>)
    ensures f.None? ==> r == Err(Failure(NotFound + projectId))
    ensures r.Ok? <==> GetLocalProject(f, projectId).Ok?
    ensures r.Err? ==> r.error == Failure(NotFound + projectId)
    ensures r.Ok? ==> r.value == ListFile(ListOrEmpty(r.value))
    ensures r.Ok? ==> |ListOrEmpty(r.value)| == |ListOrEmpty(f)|
    ensures r.Ok? ==> forall j :: 0 <= j < |ListOrEmpty(f)| && j != FirstMatch(ListOrEmpty(f), "projectId", projectId).value ==>
                        ListOrEmpty(r.value)[j] == ListOrEmpty(f)[j]
    ensures r.Ok? ==> var i := FirstMatch(ListOrEmpty(f), "projectId", projectId).value;
                      ListOrEmpty(r.value) == ListOrEmpty(f)[i := AttachArtifact(ListOrEmpty(f)[i], artifactId, now)]
    ensures r.Ok? ==> GetLocalProject(r.value, projectId) == Ok(AttachArtifact(GetLocalProject(f, projectId).value, artifactId, now))
  {
    match f
    case None => Err(Failure(NotFound + projectId))
    case Some(_) =>
      var xs := ListOrEmpty(f);
      match FirstMatch(xs, "projectId", projectId)
      case None => Err(Failure(NotFound + projectId))
      case Some(i) =>
        var ys := xs[i := AttachArtifact(xs[i], artifactId, now)];
        assert forall j :: 0 <= j < i ==> ys[j] == xs[j];
        FirstMatchIsUnique(ys, "projectId", projectId, i);
        Ok(ListFile(ys))
  }

  /** Adding the same artifact twice at the same instant leaves the file as
      adding it once did. */
  lemma AddArtifactTwice(f: Option<Doc>, projectId: string, artifactId: string, now: string)
    requires AddArtifactToProject(f, projectId, artifactId, now).Ok?
    ensures var once := AddArtifactToProject(f, projectId, artifactId, now).value;
            AddArtifactToProject(once, projectId, artifactId, now) == Ok(once)
  {
    var xs := ListOrEmpty(f);
    var i := FirstMatch(xs, "projectId", projectId).value;
    var ys := ListOrEmpty(AddArtifactToProject(f, projectId, artifactId, now).value);
    assert FirstMatch(ys, "projectId", projectId) == Some(i) by {
      assert forall j :: 0 <= j < i ==> ys[j] == xs[j];
      FirstMatchIsUnique(ys, "projectId", projectId, i);
    }
    AttachArtifactIdempotent(xs[i], artifactId, now);
    assert ys[i := AttachArtifact(ys[i], artifactId, now)] == ys;
  }
}

=== FILE: records.dfy ===
/** Collections of JSON records identified by a string field (`projectId`,
    `packId`, `learnerId`, `artifactId`, ...): the first-match lookup, the
    in-place upsert and the remove-every-match delete the commands share. */
module Records {
  import opened Outcome
  import opened Json
  import opened Sequences

  /** `v.get(key).and_then(as_str) == Some(id)`. */
  predicate HasId(v: Value, key: string, id: string)
  {
    StrField(v, key) == Some(id)
  }

  /** A record carries at most one identity for a given key. */
  lemma HasOneId(v: Value, key: string, id: string, other: string)
    requires HasId(v, key, id) && other != id
    ensures !HasId(v, key, other)
  {
  }

  /** The position of the first record whose `key` field is the string `id`. */
  function FirstMatch(xs: seq<Value>, key: string, id: string): (r: Option<nat>)
    ensures r.Some? ==> r.value < |xs| && HasId(xs[r.value], key, id)
    ensures r.Some? ==> forall j :: 0 <= j < r.value ==> !HasId(xs[j], key, id)
    ensures r.None? ==> forall j :: 0 <= j < |xs| ==> !HasId(xs[j], key, id)
    decreases |xs|
  {
    if |xs| == 0 then None
    else if HasId(xs[0], key, id) then Some(0)
    else
      assert forall j :: 0 < j < |xs| ==> xs[j] == xs[1..][j - 1];
      match FirstMatch(xs[1..], key, id)
      case None => None
      case Some(i) => Some(i + 1)
  }

  /** The first record with identity `id`, as the loops of the `get_*` commands
      return it. */
  function Lookup(xs: seq<Value>, key: string, id: string): (r: Option<Value>)
    ensures r.Some? <==> FirstMatch(xs, key, id).Some?
    ensures r.Some? ==> r.value == xs[FirstMatch(xs, key, id).value]
    ensures r.Some? ==> HasId(r.value, key, id)
    decreases |xs|
  {
    if |xs| == 0 then None
    else if HasId(xs[0], key, id) then Some(xs[0])
    else Lookup(xs[1..], key, id)
  }

  /** `ys` is `xs` with its first record of identity `id` replaced by `v` in
      place, or with `v` appended when no record has that identity. */
  ghost predicate ReplacedOrAppended(xs: seq<Value>, ys: seq<Value>, key: string, id: string, v: Value)
  {
    match FirstMatch(xs, key, id)
    case Some(i) =>
      && |ys| == |xs|
      && ys[i] == v
      && forall j :: 0 <= j < |xs| && j != i ==> ys[j] == xs[j]
    case None => ys == xs + [v]
  }

  /** The upsert of the save commands: scan for the first record of identity
      `id`, overwrite it and stop, or push `v` when the scan finds none. */
  function Upsert(xs: seq<Value>, key: string, id: string, v: Value): (r: seq<Value>)
    ensures ReplacedOrAppended(xs, r, key, id, v)
    decreases |xs|
  {
    if |xs| == 0 then [v]
    else if HasId(xs[0], key, id) then [v] + xs[1..]
    else [xs[0]] + Upsert(xs[1..], key, id, v)
  }

  /** The upsert as the source writes it: a loop over the records that
      overwrites the first match and stops, or pushes when nothing matched. */
  method UpsertInPlace(xs: seq<Value>, key: string, id: string, v: Value) returns (r: seq<Value>)
    ensures r == Upsert(xs, key, id, v)
  {
    r := xs;
    var i := 0;
    while i < |r|
      invariant 0 <= i <= |r| == |xs|
      invariant r == xs
      invariant forall j :: 0 <= j < i ==> !HasId(xs[j], key, id)
    {
      if HasId(r[i], key, id) {
        assert FirstMatch(xs, key, id) == Some(i);
        r := r[i := v];
        return;
      }
      i := i + 1;
    }
    r := r + [v];
  }

  /** `ys` is `xs` with every record of identity `id` dropped and the others
      kept in their relative order. */
  ghost predicate RetainedOthers(xs: seq<Value>, ys: seq<Value>, key: string, id: string)
  {
    && SubseqOf(ys, xs)
    && (forall i :: 0 <= i < |ys| ==> !HasId(ys[i], key, id))
    && |ys| == |xs| - CountId(xs, key, id)
  }

  /** `retain(|x| x.get(key).and_then(as_str) != Some(id))`. */
  function RemoveAll(xs: seq<Value>, key: string, id: string): (r: seq<Value>)
    ensures RetainedOthers(xs, r, key, id)
    ensures forall i :: 0 <= i < |xs| && !HasId(xs[i], key, id) ==> xs[i] in r
    ensures Lookup(xs, key, id).None? ==> r == xs
    ensures Lookup(r, key, id).None?
  {
    FilterPartition(xs, x => HasId(x, key, id), x => !HasId(x, key, id));
    assert |multiset(Select(xs, key, id))| + |multiset(Filter(xs, x => !HasId(x, key, id)))| == |multiset(xs)|;
    Filter(xs, x => !HasId(x, key, id))
  }

  /** `iter().filter(|x| x.get(key).and_then(as_str) == Some(id))`. */
  function Select(xs: seq<Value>, key: string, id: string): (r: seq<Value>)
    ensures SubseqOf(r, xs)
    ensures forall i :: 0 <= i < |r| ==> HasId(r[i], key, id)
    ensures forall i :: 0 <= i < |xs| && HasId(xs[i], key, id) ==> xs[i] in r
    ensures |r| == CountId(xs, key, id)
  {
    Filter(xs, x => HasId(x, key, id))
  }

  /** The number of records with identity `id`. */
  function CountId(xs: seq<Value>, key: string, id: string): nat
  {
    Count(xs, x => HasId(x, key, id))
  }

  /** No two records share an identity. */
  ghost predicate UniqueIds(xs: seq<Value>, key: string)
  {
    forall i, j :: 0 <= i < j < |xs| && StrField(xs[i], key).Some? ==> StrField(xs[i], key) != StrField(xs[j], key)
  }

  /** A saved record is what a lookup of its identity returns afterwards. */
  lemma LookupAfterUpsert(xs: seq<Value>, key: string, id: string, v: Value)
    requires HasId(v, key, id)
    ensures Lookup(Upsert(xs, key, id, v), key, id) == Some(v)
  {
  }

  /** The first match is the only position that matches with nothing matching
      before it. */
  lemma FirstMatchIsUnique(xs: seq<Value>, key: string, id: string, i: nat)
    requires i < |xs| && HasId(xs[i], key, id)
    requires forall j :: 0 <= j < i ==> !HasId(xs[j], key, id)
    ensures FirstMatch(xs, key, id) == Some(i)
  {
  }

  /** Saving a record leaves every other identity's lookup untouched. */
  lemma LookupOtherAfterUpsert(xs: seq<Value>, key: string, id: string, v: Value, other: string)
    requires HasId(v, key, id) && other != id
    ensures Lookup(Upsert(xs, key, id, v), key, other) == Lookup(xs, key, other)
  {
  }

  /** Saving the same record twice stores the same collection as saving it once. */
  lemma {:induction false} UpsertIdempotent(xs: seq<Value>, key: string, id: string, v: Value)
    requires HasId(v, key, id)
    ensures Upsert(Upsert(xs, key, id, v), key, id, v) == Upsert(xs, key, id, v)
    decreases |xs|
  {
    if |xs| == 0 {
    } else if HasId(xs[0], key, id) {
      assert ([v] + xs[1..])[0] == v;
    } else {
      var ys := [xs[0]] + Upsert(xs[1..], key, id, v);
      assert ys[0] == xs[0] && ys[1..] == Upsert(xs[1..], key, id, v);
      UpsertIdempotent(xs[1..], key, id, v);
    }
  }

  /** Upsert keeps identities unique. */
  lemma {:induction false} UpsertKeepsUnique(xs: seq<Value>, key: string, id: string, v: Value)
    requires UniqueIds(xs, key) && HasId(v, key, id)
    ensures UniqueIds(Upsert(xs, key, id, v), key)
    decreases |xs|
  {
    if |xs| == 0 {
    } else if HasId(xs[0], key, id) {
      var ys := [v] + xs[1..];
      assert forall j :: 0 < j < |ys| ==> ys[j] == xs[j];
    } else {
      var tail := xs[1..];
      assert UniqueIds(tail, key) by {
        assert forall j :: 0 <= j < |tail| ==> tail[j] == xs[j + 1];
      }
      UpsertKeepsUnique(tail, key, id, v);
      var rest := Upsert(tail, key, id, v);
      var ys := [xs[0]] + rest;
      forall a, b | 0 <= a < b < |ys| && StrField(ys[a], key).Some?
        ensures StrField(ys[a], key) != StrField(ys[b], key)
      {
        if a == 0 {
          if rest[b - 1] != v {
            var k :| 0 <= k < |tail| && tail[k] == rest[b - 1];
            assert xs[k + 1] == ys[b];
          }
        } else {
          assert ys[a] == rest[a - 1] && ys[b] == rest[b - 1];
        }
      }
    }
  }

  /** Deleting twice is deleting once. */
  lemma RemoveAllIdempotent(xs: seq<Value>, key: string, id: string)
    ensures RemoveAll(RemoveAll(xs, key, id), key, id) == RemoveAll(xs, key, id)
  {
  }

  /** A delete leaves every other identity's lookup untouched. */
  lemma {:induction false} LookupOtherAfterRemoveAll(xs: seq<Value>, key: string, id: string, other: string)
    requires other != id
    ensures Lookup(RemoveAll(xs, key, id), key, other) == Lookup(xs, key, other)
    decreases |xs|
  {
    if |xs| > 0 {
      LookupOtherAfterRemoveAll(xs[1..], key, id, other);
      var rest := RemoveAll(xs[1..], key, id);
      if HasId(xs[0], key, id) {
        HasOneId(xs[0], key, id, other);
        assert RemoveAll(xs, key, id) == rest;
      } else {
        var ys := [xs[0]] + rest;
        assert RemoveAll(xs, key, id) == ys;
        assert ys[1..] == rest;
      }
    }
  }

  /** A delete undoes the save of a record whose identity was new. */
  lemma {:induction false} RemoveUndoesInsert(xs: seq<Value>, key: string, id: string, v: Value)
    requires Lookup(xs, key, id).None? && HasId(v, key, id)
    ensures RemoveAll(Upsert(xs, key, id, v), key, id) == xs
    decreases |xs|
  {
    if |xs| > 0 {
      var tail := xs[1..];
      RemoveUndoesInsert(tail, key, id, v);
      var ys := [xs[0]] + Upsert(tail, key, id, v);
      assert ys[0] == xs[0] && ys[1..] == Upsert(tail, key, id, v);
      assert xs == [xs[0]] + tail;
    }
  }

  /** The records of one identity and the records of all others together make
      up the whole collection. */
  lemma SelectRemovePartition(xs: seq<Value>, key: string, id: string)
    ensures multiset(Select(xs, key, id)) + multiset(RemoveAll(xs, key, id)) == multiset(xs)
  {
    FilterPartition(xs, x => HasId(x, key, id), x => !HasId(x, key, id));
  }
}

=== FILE: sequences.dfy ===
/** Order-preserving filters over sequences: the `retain` and
    `iter().filter(..)` steps every storage command is built from. */
module Sequences {

  /** `a` is what remains of `b` after deleting some of its elements, the
      survivors keeping their relative order. */
  ghost predicate SubseqOf<T>(a: seq<T>, b: seq<T>)
    decreases |b|
  {
    if |a| == 0 then true
    else if |b| == 0 then false
    else (a[0] == b[0] && SubseqOf(a[1..], b[1..])) || SubseqOf(a, b[1..])
  }

  /** The number of elements of `xs` that satisfy `p`. */
  function Count<T>(xs: seq<T>, p: T -> bool): (n: nat)
    ensures n <= |xs|
    ensures n == 0 <==> forall i :: 0 <= i < |xs| ==> !p(xs[i])
  {
    if |xs| == 0 then 0
    else
      assert forall i :: 0 < i < |xs| ==> xs[i] == xs[1..][i - 1];
      (if p(xs[0]) then 1 else 0) + Count(xs[1..], p)
  }

  /** The elements of `xs` that satisfy `p`, in their original order. */
  function Filter<T(==)>(xs: seq<T>, p: T -> bool): (r: seq<T>)
    ensures SubseqOf(r, xs)
    ensures |r| == Count(xs, p)
    ensures forall i :: 0 <= i < |r| ==> p(r[i])
    ensures forall i :: 0 <= i < |xs| && p(xs[i]) ==> xs[i] in r
    ensures (forall i :: 0 <= i < |xs| ==> p(xs[i])) ==> r == xs
  {
    if |xs| == 0 then []
    else
      var rest := Filter(xs[1..], p);
      assert forall i :: 0 < i < |xs| ==> xs[i] == xs[1..][i - 1];
      if p(xs[0]) then
        var r := [xs[0]] + rest;
        assert r[1..] == rest;
        r
      else
        rest
  }

  /** Filtering distributes over concatenation. */
  lemma {:induction false} FilterConcat<T>(a: seq<T>, b: seq<T>, p: T -> bool)
    ensures Filter(a + b, p) == Filter(a, p) + Filter(b, p)
    decreases |a|
  {
    if |a| == 0 {
      assert a + b == b;
    } else {
      assert (a + b)[1..] == a[1..] + b;
      FilterConcat(a[1..], b, p);
    }
  }

  /** Filtering by `p` and then by `q` is filtering by their conjunction. */
  lemma {:induction false} FilterTwice<T>(xs: seq<T>, p: T -> bool, q: T -> bool, both: T -> bool)
    requires forall x :: both(x) == (p(x) && q(x))
    ensures Filter(Filter(xs, p), q) == Filter(xs, both)
    decreases |xs|
  {
    if |xs| > 0 {
      FilterTwice(xs[1..], p, q, both);
      if p(xs[0]) {
        assert ([xs[0]] + Filter(xs[1..], p))[1..] == Filter(xs[1..], p);
      }
    }
  }

  /** Predicates that agree everywhere filter alike. */
  lemma {:induction false} FilterAgreeing<T>(xs: seq<T>, p: T -> bool, q: T -> bool)
    requires forall x :: p(x) == q(x)
    ensures Filter(xs, p) == Filter(xs, q)
    decreases |xs|
  {
    if |xs| > 0 {
      FilterAgreeing(xs[1..], p, q);
    }
  }

  /** Filtering with a predicate keeps exactly the elements that filtering
      with its negation drops. */
  lemma {:induction false} FilterPartition<T>(xs: seq<T>, p: T -> bool, q: T -> bool)
    requires forall x :: q(x) == !p(x)
    ensures multiset(Filter(xs, p)) + multiset(Filter(xs, q)) == multiset(xs)
    decreases |xs|
  {
    if |xs| > 0 {
      FilterPartition(xs[1..], p, q);
      assert xs == [xs[0]] + xs[1..];
    }
  }
}

=== FILE: text_match.dfy ===
/** The case-insensitive substring test of the library search. */
module TextMatch {

  predicate IsUpper(c: char)
  {
    'A' <= c <= 'Z'
  }

  /** Lower-cases one character; only the ASCII letters A-Z change. */
  function LowerChar(c: char): (d: char)
    ensures !IsUpper(d)
    ensures IsUpper(c) ==> d as int == c as int + 32
    ensures !IsUpper(c) ==> d == c
  {
    if IsUpper(c) then (c as int + 32) as char else c
  }

  /** `to_lowercase`, restricted to ASCII letters. */
  function Lower(s: string): (r: string)
    ensures |r| == |s|
    ensures forall i :: 0 <= i < |r| ==> r[i] == LowerChar(s[i])
  {
    seq(|s|, i requires 0 <= i < |s| => LowerChar(s[i]))
  }

  /** Lower-casing twice is lower-casing once. */
  lemma LowerIdempotent(s: string)
    ensures Lower(Lower(s)) == Lower(s)
  {
  }

  predicate IsPrefix(p: string, s: string)
  {
    |p| <= |s| && s[..|p|] == p
  }

  /** `hay.contains(needle)`: the needle occurs somewhere in the haystack; the
      empty needle occurs everywhere. */
  predicate Contains(hay: string, needle: string)
    decreases |hay|
  {
    IsPrefix(needle, hay) || (|hay| > 0 && Contains(hay[1..], needle))
  }

  /** The needle sits in the haystack at offset `i`. */
  predicate OccursAt(hay: string, needle: string, i: nat)
  {
    i + |needle| <= |hay| && hay[i..i + |needle|] == needle
  }

  /** `Contains` holds exactly when the needle sits at some offset. */
  lemma {:induction false} ContainsAtOffset(hay: string, needle: string)
    ensures Contains(hay, needle) <==> exists i: nat :: OccursAt(hay, needle, i)
    decreases |hay|
  {
    if |hay| > 0 {
      ContainsAtOffset(hay[1..], needle);
      if IsPrefix(needle, hay) {
        assert OccursAt(hay, needle, 0);
      }
      if Contains(hay[1..], needle) {
        var i: nat :| OccursAt(hay[1..], needle, i);
        assert hay[i + 1..i + 1 + |needle|] == hay[1..][i..i + |needle|];
        assert OccursAt(hay, needle, i + 1);
      }
      if exists i: nat :: OccursAt(hay, needle, i) {
        var i: nat :| OccursAt(hay, needle, i);
        if i > 0 {
          assert hay[1..][i - 1..i - 1 + |needle|] == hay[i..i + |needle|];
          assert OccursAt(hay[1..], needle, i - 1);
        } else {
          assert IsPrefix(needle, hay);
        }
      }
    } else if exists i: nat :: OccursAt(hay, needle, i) {
      var i: nat :| OccursAt(hay, needle, i);
      assert |needle| == 0 && IsPrefix(needle, hay);
    } else {
      assert OccursAt(hay, needle, 0) || !IsPrefix(needle, hay);
    }
  }
}
